=== FILE: README.md ===
# Log tailer of the Dota 2 lobby watcher, in Dafny

This project models the log tailer in `src/log_watch.rs`. The tailer watches
the game client's console log for the line that announces a lobby, and
returns the Steam account ids of the players named on that line.

- `LogWatcher::register` opens the log and places the reader at the file's
  current length. Only text written after registration is read.
- `LogWatcher::watch` reads line after line with `read_line`. It advances
  its offset by what each read returns and re-seeks the reader to it. It
  removes the newlines from the line. When the line contains `Lobby`, it
  returns `fetch_player_ids` of that line.
- `fetch_player_ids` finds the non-overlapping matches of `\[U:1:\d{8,9}\]`
  from left to right and keeps each distinct tag text once, in the order of
  its first match. It cuts off the five-character prefix and the closing
  bracket and parses the digits as an `i32`.

The modules, one per file:

- `Wrappers`: `Option` and `Result`.
- `Decimal`: `str::parse::<i32>`, proved against the place value of a digit
  run.
- `Itertools`: the `unique` adaptor.
- `Io`: the log file and the `BufReader` cursor, with `read_line` and `seek`.
- `LineEvents`: `dota_match_log_message` and `fetch_player_ids`. The two
  regular expressions are written out as scanners.
- `LogWatch`: the `LogWatcher` class with `Register`, `Poll` (one pass of the
  loop in `watch`) and `Watch`. The functions `PollStep` and `WatchRun`
  specify them. `FirstTrigger` is an independent reference: the first line,
  among the lines the data is cut into, that holds `Lobby`.

Outside behaviour is passed in as parameters:

- whether opening the file fails, and whether reading its metadata fails
  (`Register`);
- whether each pass's `read_line` fails (`Poll`, `Watch`);
- what the game client appends to the file (`LogFile.Append`, called between
  calls of `Watch`).

`watch` never returns without a trigger line. `Watch` takes one entry of
`failures` per pass of the loop. When the entries run out, it returns `None`,
meaning that it is still waiting. `WatchRunComplete` shows that, with enough
successful reads, `Watch` stops on the first trigger line written after its
offset.

An unterminated last line is not held back. `read_line` returns the partial
last line, `pos` moves past it, and the next read starts after it.
`PartialLineConsumed` shows the consequence. Suppose `Lob` is written first,
and `by [U:1:12345678]` plus a newline later. Neither piece is a trigger line,
although the whole line is. If the watcher reads between the two writes, it
never reports that line. `SplitTriggerLosesIds` shows the other case. Suppose
the first piece already holds `Lobby`, as in `Lobby ` followed later by
`[U:1:12345678]` and a newline. Then `watch` stops on the first piece and
returns its ids, which are none, and the player named in the second piece is
lost.

## Model

| member | source | states |
|---|---|---|
| Decimal.DecimalValue | src/log_watch.rs:98 | the value a digit run denotes is below 10 to the power of its length |
| Decimal.ParseI32 | src/log_watch.rs:98 | `parse::<i32>` succeeds only on non-empty input and only with a value in the i32 range |
| Decimal.AccumulatePositive | src/log_watch.rs:98 | digit accumulation never decreases and never exceeds the i32 maximum |
| Decimal.AccumulateNegative | src/log_watch.rs:98 | negative accumulation never increases and never goes below the i32 minimum |
| Decimal.AccumulatePositiveValue | src/log_watch.rs:98 | accumulating digits gives their place value, and fails exactly when that value exceeds the i32 maximum |
| Decimal.ParseDigitRun | src/log_watch.rs:96-99 | a run of 1 to 9 ASCII digits always parses, to its decimal value, which is at most 999,999,999; the `unwrap` cannot panic |
| Itertools.FirstIndex | src/log_watch.rs:91 | the position found holds the value, and no earlier position does |
| Itertools.UniqueAfter | src/log_watch.rs:91 | the values yielded are distinct; they are exactly the input values not yet seen |
| Itertools.Unique | src/log_watch.rs:91 | `unique()` yields distinct values, exactly the values of the input, and never more of them |
| Itertools.UniqueKeepsFirstOccurrenceOrder | src/log_watch.rs:91 | `unique()` yields values in the order of their first occurrences in the input |
| Io.LogFile.Append | src/log_watch.rs:57 | the game client's writes, made outside `src/log_watch.rs`, that `read_line` observes: they only append, so what the file held stays a prefix, followed by the new text |
| Io.LineEnd | src/log_watch.rs:57 | a line ends just past its first newline, or at the end of the data |
| Io.NextLine | src/log_watch.rs:57 | `read_line` returns nothing exactly at or past the end, and never reads past the end of the data |
| Io.NextLineShape | src/log_watch.rs:57 | `read_line` returns nothing exactly at or past the end; otherwise a non-empty piece of the data at the cursor whose only newline is its last character, running to the end of the data when it has none |
| Io.LinesConcat | src/log_watch.rs:57 | reading line after line loses and repeats nothing: the lines joined are the data, every line is non-empty, all but the last end with a newline, and no line holds a newline anywhere but at its end |
| Io.LinesNewlineAtEnd | src/log_watch.rs:57 | no line `read_line` returns holds a newline anywhere but as its last character |
| Io.NextLineShift | src/log_watch.rs:57 | data written before the cursor does not change what `read_line` returns |
| Io.LinesFrom | src/log_watch.rs:57 | the lines after an offset are the line read there followed by the lines after it |
| Io.ReadsTerminatedLine | src/log_watch.rs:57 | a newline-terminated line is read whole, newline included, whatever follows it |
| Io.Reader.Seek | src/log_watch.rs:62 | `seek(SeekFrom::Start(p))` puts the cursor at `p` |
| Io.Reader.ReadLine | src/log_watch.rs:57 | a failed read returns an error and consumes nothing; otherwise it returns the next line and moves the cursor past it |
| LineEvents.OccursFrom | src/log_watch.rs:102-105 | the search is true exactly when the pattern occurs at or after the start position |
| LineEvents.DotaMatchLogMessage | src/log_watch.rs:102-105 | a line is a trigger exactly when `Lobby` occurs in it |
| LineEvents.DigitsAt | src/log_watch.rs:80 | the count covers only ASCII digits, stops at the bound, and is followed by a non-digit |
| LineEvents.AllTagsMembers | src/log_watch.rs:80 | the reference list holds exactly the tags that occur somewhere in the line |
| LineEvents.AllTagsSound | src/log_watch.rs:80 | every entry of the reference list is a tag occurring in the line |
| LineEvents.AllTagsComplete | src/log_watch.rs:80 | every tag occurring in the line is in the reference list |
| LineEvents.TagLengthAt | src/log_watch.rs:80 | a non-zero match length at a position is a tag of 14 or 15 characters there |
| LineEvents.TagLengthComplete | src/log_watch.rs:80 | wherever a tag starts, the match found there is exactly that tag |
| LineEvents.TagLengthShift | src/log_watch.rs:83-86 | what precedes a position does not change the match found there |
| LineEvents.NoTagWithoutBracket | src/log_watch.rs:80 | no match starts at a character other than `[` |
| LineEvents.FindTags | src/log_watch.rs:83-86 | the `find_iter` scan yields no more matches than the line has characters; what it yields is settled by FindTagsAreTags and FindTagsFindsAll |
| LineEvents.FindTagsAreTags | src/log_watch.rs:83-86 | every match `find_iter` yields is a whole tag |
| LineEvents.NoTagInsideTag | src/log_watch.rs:80 | no tag starts inside another tag |
| LineEvents.FindTagsFindsAll | src/log_watch.rs:83-86 | the non-overlapping scan yields every tag occurrence of the line, in order of position |
| LineEvents.FindTagsAfterPlain | src/log_watch.rs:83-86 | text without `[` in front of the rest of the line adds no match |
| LineEvents.FindTagsAfterTag | src/log_watch.rs:83-86 | a tag at the start of the line is matched first, whatever follows it |
| LineEvents.NoTagNoIds | src/log_watch.rs:78-100 | a line without any tag yields no ids |
| LineEvents.TagDigits | src/log_watch.rs:92 | the slice `[5..len-1]` of a tag is its run of 8 or 9 ASCII digits, and the tag is the prefix, those digits and `]` |
| LineEvents.ParsePlayerIds | src/log_watch.rs:96-99 | one id per tag, in order, each the decimal value of the tag's digits, between 0 and 999,999,999 |
| LineEvents.FetchPlayerIds | src/log_watch.rs:78-100 | the ids are the values of the distinct tag texts of the line, in first-occurrence order, stated both over the reference list of all tag occurrences and over the `find_iter` scan; each is between 0 and 999,999,999; there are at most as many ids as tag occurrences |
| LineEvents.FetchAfterPlain | src/log_watch.rs:78-100 | text without `[` in front of a line changes none of its ids |
| LineEvents.SingleTag | src/log_watch.rs:78-100 | a line that is one tag yields exactly that tag's value |
| LineEvents.WrappedTag | src/log_watch.rs:80 | a run of 8 or 9 digits between `[U:1:` and `]` is a tag whose digits are that run |
| LineEvents.WrappedNoTagAt | src/log_watch.rs:80 | with fewer than 8 or more than 9 digits no tag occurs anywhere in the wrapped run |
| LineEvents.DigitCountBoundary | src/log_watch.rs:80 | a bracketed digit run yields its value with 8 or 9 digits and nothing with any other count |
| LineEvents.Tag | src/log_watch.rs:82 | the tag built from 8 or 9 digits is a tag whose digits are those digits |
| LineEvents.IdsOfTwoTags | src/log_watch.rs:89-99 | a line whose distinct tags are two tags yields their two values, in that order |
| LineEvents.DedupByText | src/log_watch.rs:89-92 | duplicates are removed by tag text, not by value: two tags that differ only by a leading zero give the same id twice |
| LineEvents.TagsOfRepeatLine | src/log_watch.rs:83-86 | on a line naming players `t1`, `t1`, `t2` between tag-free text, `find_iter` yields `t1`, `t1`, `t2` |
| LineEvents.RepeatedPlayerOnce | src/log_watch.rs:89-94 | a player named twice is reported once, in the order players first appear |
| LogWatch.StripNewlines | src/log_watch.rs:63 | `replace("\n", "")` never makes the line longer; StripNewlinesSpec gives the rest |
| LogWatch.StripNewlinesSpec | src/log_watch.rs:63 | `replace("\n", "")` leaves no newline, and leaves text without newlines unchanged |
| LogWatch.StripNewlinesConcat | src/log_watch.rs:63 | removing newlines piecewise is removing them from the whole |
| LogWatch.StripReadLine | src/log_watch.rs:57-63 | a line from `read_line` loses exactly its terminating newline, if it has one |
| LogWatch.StripTerminated | src/log_watch.rs:63 | a line that has no newline except its terminator is tested without it |
| LogWatch.IsTriggerLine | src/log_watch.rs:63-64 | a line without newlines is a trigger line exactly when `dota_match_log_message` accepts it as it is |
| LogWatch.PollStep | src/log_watch.rs:56-73 | a pass never moves the offset backwards, and it stops only on the line it read at its start offset, moving past it |
| LogWatch.PollStepSpec | src/log_watch.rs:56-73 | a pass whose read fails or returns nothing changes nothing and returns nothing; otherwise it advances to the end of the next line and stops exactly when that line, without newlines, holds `Lobby` |
| LogWatch.WatchRun | src/log_watch.rs:55-75 | the loop never moves the offset backwards, and it stops only on a line read at or after its start offset, ending past it |
| LogWatch.IdsAt | src/log_watch.rs:64-66 | `watch` returns ids exactly when it stopped on a trigger line |
| LogWatch.TriggerText | src/log_watch.rs:63-65 | the text tested and parsed exists exactly when the run stopped on a line |
| LogWatch.WatchRunBounds | src/log_watch.rs:55-75 | the offset never moves backwards and never past the end of the data |
| LogWatch.WatchRunAtEnd | src/log_watch.rs:57-60 | with nothing new in the file the watcher keeps waiting where it is |
| LogWatch.WatchRunSound | src/log_watch.rs:63-66 | `watch` stops only on a trigger line read at or after its start offset, and stops just past that line |
| LogWatch.Successes | src/log_watch.rs:70-72 | keeps one successful read for each read that does not fail, and nothing else |
| LogWatch.FailuresAreNoOps | src/log_watch.rs:70-72 | a failed read changes nothing: the run equals the run of the successful reads alone |
| LogWatch.FirstTriggerFinds | src/log_watch.rs:63-66 | the reference finds a line exactly when some line is a trigger line, and then it is the first trigger line |
| LogWatch.FirstTriggerStep | src/log_watch.rs:57-66 | a successful pass consumes the first of the lines after the offset and tests it for the trigger |
| LogWatch.WatchRunComplete | src/log_watch.rs:54-75 | with enough successful reads, `watch` stops on the first trigger line after its offset and returns its text; when there is none it has read to the end |
| LogWatch.WatchRunFindsFirstTrigger | src/log_watch.rs:54-75 | whatever reads fail in between, once at least as many reads succeed as there are lines, `watch` stops on the first trigger line after its offset, or has read to the end when there is none |
| LogWatch.PartialLineConsumed | src/log_watch.rs:57-66 | an unterminated partial line is consumed. So when the watcher reads between the two writes of a line and neither piece holds `Lobby`, the line is never reported, although read whole it is a trigger |
| LogWatch.SplitTriggerLosesIds | src/log_watch.rs:57-66 | when a line is split so that its first piece holds `Lobby` but no `[` and no newline, and the watcher reads between the writes, `watch` stops on the first piece and returns no ids, while the whole line, read in one piece, yields the player's id |
| LogWatch.LogWatcher.Open | src/log_watch.rs:41-43 | the reader is over the file and positioned at its current length |
| LogWatch.LogWatcher.Register | src/log_watch.rs:30-52 | an open error or a metadata error is returned as it is; otherwise the watcher starts at the file's current length, with reader and offset in step |
| LogWatch.LogWatcher.Poll | src/log_watch.rs:56-73 | one pass of the loop does what `PollStep` specifies: the new offset, and the ids exactly when the line read is a trigger line |
| LogWatch.LogWatcher.Watch | src/log_watch.rs:54-75 | the loop does what `WatchRun` specifies: it returns the ids of the line it stops on, and keeps reader and offset in step |
| LogWatch.ReadsPlainLine | src/log_watch.rs:57-68 | a pass that reads a terminated line which is no trigger moves past it and returns nothing |
| LogWatch.ReadsTriggerLine | src/log_watch.rs:57-66 | a pass that reads a terminated trigger line stops on it, whatever follows it, and the text it tests is the line |
| LogWatch.SkipThenTrigger | src/log_watch.rs:55-75 | after a line that is no trigger and a trigger line, with a failed read in between, the watcher stops on the trigger line |
| LogWatch.MatchExtends | src/log_watch.rs:102-105 | text appended to a trigger line leaves it a trigger line |
| LogWatch.TagHasNoNewline | src/log_watch.rs:80 | a tag holds no newline |
| LogWatch.TriggerOfTag | src/log_watch.rs:64-65 | a newline-free lead holding `Lobby` and no `[`, followed by a tag, is a trigger line that yields exactly the tag's id |
| LogWatch.NewTriggerRun | src/log_watch.rs:42-75 | after registration, a line that is no trigger, a failed read and a trigger line, `watch` returns the trigger's player id, whatever the file held before |
| LogWatch.TailNewTrigger | src/log_watch.rs:30-75 | register on a log with existing content, append a line that is no trigger and a trigger line, and `watch` returns exactly the new trigger's player id |

## Left out

- The file is a sequence of characters, one character per byte. `read_line`'s error for invalid UTF-8 is not modelled, and neither is `\d` matching non-ASCII digits.
- Whether opening the file, reading its metadata and each `read_line` fail are parameters. The contents read come from `LogFile.data`, and the metadata length is its length. The model has no file system, no file names and no concurrent writer inside one `Watch` call. The writer appends between calls (`LogFile.Append`).
- LogWatch.LogWatcher.Watch: the source loops for ever. The model runs one pass per entry of `failures` and returns `None` when they run out.
- The error printed with `println!` when `read_line` fails is left out.
- Io.Reader.ReadLine: a failed read is modelled as consuming nothing. The standard `read_line` can consume bytes before it returns an error. It does so on invalid UTF-8, and when a later buffer refill fails on a line longer than the buffer. The source's error arm then moves neither `pos` nor the reader, so the reader is left ahead of `pos`. After that, the line is lost, or its tail is read as a line and the next seek goes back over bytes already read. The model does not capture this.
- LogWatch.FailuresAreNoOps: it holds for the model's failed read, which consumes nothing. It does not cover a source read that consumed bytes before it failed (see Io.Reader.ReadLine above). In the source such a read is not a no-op.
- The `unwrap` calls on `seek` are not modelled as failures, and neither is the one on `file_index`. Seeking a file to any offset succeeds.
- The `u64` offset is an unbounded `nat`. It cannot overflow in practice.
- `register` stores `filename`, `finish` and `unique_id` (`file_index`, Windows only), but `watch` never reads them. `LogWatcherAction` is declared and never used. The model leaves all four out.
- `async` and the channel types the file imports are not modelled. `watch` is modelled as an ordinary call.
- Within one `Watch` call the file does not change, and the lemmas about `WatchRun` assume the same. Lines appended between calls are covered by `LogWatch.TailNewTrigger`.

=== FILE: decimal.dfy ===
/**
 * Decimal digits and Rust's `str::parse::<i32>`, which the id extractor
 * applies to each digit run it cuts out of a tag.
 */
module Decimal {
  import opened Wrappers

  const MaxI32: int := 0x7fff_ffff
  const MinI32: int := -0x8000_0000

  /** ASCII digits only: the extractor's digit class is restricted to '0'..'9'. */
  predicate IsDigit(c: char) {
    '0' <= c <= '9'
  }

  predicate AllDigits(s: string) {
    forall i :: 0 <= i < |s| ==> IsDigit(s[i])
  }

  function DigitValue(c: char): (d: nat)
    requires IsDigit(c)
    ensures d < 10
  {
    c as int - '0' as int
  }

  function Pow10(n: nat): (p: nat)
    ensures p >= 1
  {
    if n == 0 then 1 else 10 * Pow10(n - 1)
  }

  /**
   * The value a run of digits denotes, by place value: the leading digit
   * weighs 10^(length - 1). This is the reference the parser is proved against.
   */
  function DecimalValue(s: string): (v: nat)
    requires AllDigits(s)
    ensures v < Pow10(|s|)
  {
    if s == [] then 0
    else
      var d, rest := DigitValue(s[0]), DecimalValue(s[1..]);
      LeadingDigitBound(d, Pow10(|s| - 1), rest);
      d * Pow10(|s| - 1) + rest
  }

  /** A leading digit in front of a shorter tail stays below the next power of ten. */
  lemma LeadingDigitBound(d: nat, p: nat, rest: nat)
    requires d < 10 && rest < p
    ensures d * p + rest < 10 * p
  {
    assert d * p <= 9 * p;
  }

  /**
   * `str::parse::<i32>`: an optional `+` or `-`, then one or more ASCII
   * digits; anything else, an empty digit part, or a value outside the i32
   * range is an error (here `None`).
   */
  function ParseI32(s: string): (r: Option<int>)
    ensures r.Some? ==> MinI32 <= r.value <= MaxI32
    ensures r.Some? ==> |s| > 0
  {
    if s == [] then None
    else if (s[0] == '+' || s[0] == '-') && |s| == 1 then None
    else if s[0] == '+' then AccumulatePositive(s[1..], 0)
    else if s[0] == '-' then AccumulateNegative(s[1..], 0)
    else AccumulatePositive(s, 0)
  }

  /** Left-to-right accumulation `acc * 10 + d`, failing as soon as it exceeds MaxI32. */
  function AccumulatePositive(s: string, acc: int): (r: Option<int>)
    requires 0 <= acc <= MaxI32
    ensures r.Some? ==> acc <= r.value <= MaxI32
  {
    if s == [] then Some(acc)
    else if !IsDigit(s[0]) then None
    else
      var next := acc * 10 + DigitValue(s[0]);
      if next > MaxI32 then None else AccumulatePositive(s[1..], next)
  }

  /** Left-to-right accumulation `acc * 10 - d`, failing as soon as it falls below MinI32. */
  function AccumulateNegative(s: string, acc: int): (r: Option<int>)
    requires MinI32 <= acc <= 0
    ensures r.Some? ==> MinI32 <= r.value <= acc
  {
    if s == [] then Some(acc)
    else if !IsDigit(s[0]) then None
    else
      var next := acc * 10 - DigitValue(s[0]);
      if next < MinI32 then None else AccumulateNegative(s[1..], next)
  }

  lemma {:induction false} Pow10Monotone(a: nat, b: nat)
    requires a <= b
    ensures Pow10(a) <= Pow10(b)
  {
    if a < b {
      Pow10Monotone(a, b - 1);
    }
  }

  /**
   * The accumulation computes the place value of the digits appended to
   * `acc`, and fails exactly when that value exceeds MaxI32: an intermediate
   * value never exceeds the final one.
   */
  lemma {:induction false} AccumulatePositiveValue(s: string, acc: int)
    requires AllDigits(s) && 0 <= acc <= MaxI32
    ensures var v := acc * Pow10(|s|) + DecimalValue(s);
      AccumulatePositive(s, acc) == if v <= MaxI32 then Some(v) else None
  {
    if s != [] {
      var t := s[1..];
      var d, p := DigitValue(s[0]), Pow10(|t|);
      var next := acc * 10 + d;
      assert AllDigits(t);
      assert Pow10(|s|) == 10 * p;
      assert DecimalValue(s) == d * p + DecimalValue(t);
      ShiftDigit(acc, d, p, DecimalValue(t));
      if next <= MaxI32 {
        AccumulatePositiveValue(t, next);
      }
    }
  }

  /** Appending one digit `d` in front of a tail worth `w` with weight `p`. */
  lemma ShiftDigit(acc: int, d: int, p: int, w: int)
    requires acc >= 0 && d >= 0 && p >= 1 && w >= 0
    ensures acc * (10 * p) + (d * p + w) == (acc * 10 + d) * p + w
    ensures (acc * 10 + d) * p + w >= acc * 10 + d
  {
    assert (acc * 10 + d) * p == acc * 10 * p + d * p;
    assert (acc * 10 + d) * p - (acc * 10 + d) == (acc * 10 + d) * (p - 1);
  }

  /**
   * A run of one to nine ASCII digits always parses, to its place value:
   * the `unwrap` after parsing a tag's digits can never fail.
   */
  lemma ParseDigitRun(s: string)
    requires AllDigits(s) && 1 <= |s| <= 9
    ensures ParseI32(s) == Some(DecimalValue(s))
    ensures DecimalValue(s) <= 999_999_999
  {
    assert IsDigit(s[0]);
    Pow10Monotone(|s|, 9);
    Pow10Nine();
    AccumulatePositiveValue(s, 0);
    assert 0 * Pow10(|s|) == 0;
  }

  lemma Pow10Nine()
    ensures Pow10(9) == 1_000_000_000
  {
  }

  /** A leading zero does not change the value of a digit run. */
  lemma LeadingZero(s: string)
    requires AllDigits(s)
    ensures AllDigits("0" + s) && DecimalValue("0" + s) == DecimalValue(s)
  {
    assert ("0" + s)[1..] == s;
  }
}

=== FILE: io.dfy ===
/**
 * The file the tailer reads and the buffered reader over it. A file is a
 * sequence of characters, one character per byte; the reader is the cursor
 * of Rust's `BufReader<File>`, with `read_line` and `seek`.
 */
module Io {
  import opened Wrappers

  /** The kinds of `io::Error` the model distinguishes. */
  datatype IoError = NotFound | PermissionDenied | Other

  /** The log file on disk; the game client appends to it while it is watched. */
  class LogFile {
    var data: string

    constructor (initial: string)
      ensures data == initial
    {
      data := initial;
    }

    /** The writer appends to the end; nothing already written changes. */
    method Append(s: string)
      modifies this
      ensures data == old(data) + s
    {
      data := data + s;
    }
  }

  /**
   * Where the line that starts at `from` ends: just past its first `'\n'`,
   * or at the end of the data when no newline follows.
   */
  function LineEnd(data: string, from: nat): (e: nat)
    requires from <= |data|
    ensures from <= e <= |data|
    ensures from < |data| ==> from < e
    ensures forall j :: from <= j < e - 1 ==> data[j] != '\n'
    ensures e == |data| || data[e - 1] == '\n'
    decreases |data| - from
  {
    if from == |data| then from
    else if data[from] == '\n' then from + 1
    else LineEnd(data, from + 1)
  }

  /**
   * What `read_line` returns from offset `pos`: everything up to and
   * including the first `'\n'`, or the rest of the data when there is no
   * newline (an unterminated last line is returned, not held back), or
   * nothing at or past the end.
   */
  function NextLine(data: string, pos: nat): (line: string)
    ensures line == [] <==> pos >= |data|
    ensures pos < |data| ==> pos + |line| <= |data|
  {
    if pos >= |data| then [] else data[pos..LineEnd(data, pos)]
  }

  /** The data from `pos` on, cut into successive `read_line` results. */
  function Lines(s: string): (lines: seq<string>)
    decreases |s|
  {
    if s == [] then []
    else
      var line := NextLine(s, 0);
      [line] + Lines(s[|line|..])
  }

  function Concat(lines: seq<string>): (s: string) {
    if lines == [] then [] else lines[0] + Concat(lines[1..])
  }

  /**
   * A line read at `pos` is a non-empty piece of the data starting at `pos`;
   * its only `'\n'` is its last character, and when it has none it runs to
   * the end of the data. At or past the end nothing is read.
   */
  lemma NextLineShape(data: string, pos: nat)
    ensures var line := NextLine(data, pos);
      (pos >= |data| <==> line == [])
      && (pos < |data| ==> pos + |line| <= |data| && line == data[pos..pos + |line|])
      && (forall j :: 0 <= j < |line| - 1 ==> line[j] != '\n')
      && (line != [] && line[|line| - 1] != '\n' ==> pos + |line| == |data|)
  {
    if pos < |data| {
      var e := LineEnd(data, pos);
      var line := NextLine(data, pos);
      assert line == data[pos..e];
      forall j | 0 <= j < |line| - 1
        ensures line[j] != '\n'
      {
        assert line[j] == data[pos + j];
      }
    }
  }

  /** Data written before `pos0` does not change what is read after it. */
  lemma {:induction false} LineEndShift(before: string, after: string, from: nat)
    requires from <= |after|
    ensures LineEnd(before + after, |before| + from) == |before| + LineEnd(after, from)
    decreases |after| - from
  {
    var data := before + after;
    if from < |after| {
      assert data[|before| + from] == after[from];
      if after[from] != '\n' {
        LineEndShift(before, after, from + 1);
      }
    }
  }

  lemma NextLineShift(before: string, after: string, pos: nat)
    ensures NextLine(before + after, |before| + pos) == NextLine(after, pos)
  {
    if pos < |after| {
      LineEndShift(before, after, pos);
      var e := LineEnd(after, pos);
      assert (before + after)[|before| + pos..|before| + e] == after[pos..e];
    }
  }

  /** A newline-terminated line written after `before` is read whole, newline included. */
  lemma ReadsTerminatedLine(before: string, line: string, after: string)
    requires '\n' !in line
    ensures NextLine(before + (line + "\n" + after), |before|) == line + "\n"
  {
    var x := line + "\n" + after;
    NextLineShift(before, x, 0);
    TakeOfAppend(line + "\n", after);
    LineEndOfTerminated(x, line, 0);
  }

  /** Reading the data from `pos` is reading the data that is left after `pos`. */
  lemma NextLineDrop(data: string, pos: nat)
    requires pos <= |data|
    ensures NextLine(data[pos..], 0) == NextLine(data, pos)
  {
    SplitAt(data, pos);
    NextLineShift(data[..pos], data[pos..], 0);
  }

  lemma LinesCons(s: string)
    requires s != []
    ensures Lines(s) == [NextLine(s, 0)] + Lines(s[|NextLine(s, 0)|..])
  {
  }

  /** The lines after `pos` are the line read at `pos` followed by the lines after it. */
  lemma LinesFrom(data: string, pos: nat)
    requires pos < |data|
    ensures var line := NextLine(data, pos);
      pos + |line| <= |data| && Lines(data[pos..]) == [line] + Lines(data[pos + |line|..])
  {
    var line := NextLine(data, pos);
    NextLineDrop(data, pos);
    LinesCons(data[pos..]);
    NextLineShape(data, pos);
    assert data[pos..][|line|..] == data[pos + |line|..];
  }

  lemma TakeOfAppend(a: string, b: string)
    ensures (a + b)[..|a|] == a
  {
  }

  lemma SplitAt(s: string, i: nat)
    requires i <= |s|
    ensures s[..i] + s[i..] == s
  {
  }

  lemma {:induction false} LineEndOfTerminated(x: string, line: string, from: nat)
    requires '\n' !in line && from <= |line|
    requires |line| < |x| && x[..|line| + 1] == line + "\n"
    ensures LineEnd(x, from) == |line| + 1
    decreases |line| - from
  {
    assert x[from] == x[..|line| + 1][from];
    if from < |line| {
      assert x[from] == line[from];
      LineEndOfTerminated(x, line, from + 1);
    }
  }

  /**
   * Reading line after line loses and repeats nothing: the lines put back
   * together are the data, every line is non-empty, and every line but the
   * last ends with its only newline.
   */
  lemma {:induction false} LinesConcat(s: string)
    ensures Concat(Lines(s)) == s
    ensures forall k :: 0 <= k < |Lines(s)| ==> Lines(s)[k] != []
    ensures forall k :: 0 <= k < |Lines(s)| - 1 ==> Lines(s)[k][|Lines(s)[k]| - 1] == '\n'
    ensures forall k, j :: 0 <= k < |Lines(s)| && 0 <= j < |Lines(s)[k]| - 1 ==> Lines(s)[k][j] != '\n'
    decreases |s|
  {
    if s != [] {
      var line := NextLine(s, 0);
      NextLineShape(s, 0);
      var rest := s[|line|..];
      LinesConcat(rest);
      LinesCons(s);
      ConcatCons(line, Lines(rest));
      SplitAt(s, |line|);
      if Lines(rest) != [] {
        assert rest != [];
        assert line[|line| - 1] == '\n';
      }
    }
    LinesNewlineAtEnd(s);
  }

  /** No line read holds a newline anywhere but at its end. */
  lemma {:induction false} LinesNewlineAtEnd(s: string)
    ensures forall k, j :: 0 <= k < |Lines(s)| && 0 <= j < |Lines(s)[k]| - 1 ==> Lines(s)[k][j] != '\n'
    decreases |s|
  {
    if s != [] {
      var line := NextLine(s, 0);
      NextLineShape(s, 0);
      var rest := s[|line|..];
      LinesNewlineAtEnd(rest);
      LinesCons(s);
      forall k, j | 0 <= k < |Lines(s)| && 0 <= j < |Lines(s)[k]| - 1
        ensures Lines(s)[k][j] != '\n'
      {
        if k > 0 {
          assert Lines(s)[k] == Lines(rest)[k - 1];
        }
      }
    }
  }

  lemma ConcatCons(line: string, rest: seq<string>)
    ensures Concat([line] + rest) == line + Concat(rest)
  {
    assert ([line] + rest)[1..] == rest;
  }

  /** `BufReader<File>`: a cursor into the file, moved by `read_line` and `seek`. */
  class Reader {
    const file: LogFile
    var cursor: nat

    constructor (file: LogFile)
      ensures this.file == file && cursor == 0
    {
      this.file := file;
      cursor := 0;
    }

    /** `seek(SeekFrom::Start(p))`: any offset is accepted, even past the end. */
    method Seek(p: nat)
      modifies this
      ensures cursor == p
    {
      cursor := p;
    }

    /**
     * `read_line`: reads up to and including the next `'\n'` or to the end
     * of the data and moves the cursor past what it read. `fails` stands for
     * an I/O error reported by the operating system; such a read consumes
     * nothing.
     */
    method ReadLine(fails: bool) returns (r: Result<string, IoError>)
      modifies this
      ensures fails ==> r.Err? && cursor == old(cursor)
      ensures !fails ==> r == Ok(NextLine(file.data, old(cursor)))
      ensures !fails ==> cursor == old(cursor) + |r.value|
    {
      if fails {
        return Err(Other);
      }
      var data := file.data;
      if cursor >= |data| {
        return Ok([]);
      }
      var i := cursor;
      while i < |data| && data[i] != '\n'
        invariant cursor <= i <= |data|
        invariant LineEnd(data, i) == LineEnd(data, cursor)
      {
        i := i + 1;
      }
      var end := if i < |data| then i + 1 else i;
      r := Ok(data[cursor..end]);
      cursor := end;
    }
  }
}

=== FILE: itertools.dfy ===
/** Itertools' `unique` adaptor, which the id extractor applies to the matched tags. */
module Itertools {

  /** No value occurs twice. */
  ghost predicate Distinct<T>(s: seq<T>) {
    forall i, j :: 0 <= i < j < |s| ==> s[i] != s[j]
  }

  /** Position of the first occurrence of `x` in `s`. */
  function FirstIndex<T(==)>(s: seq<T>, x: T): (i: nat)
    requires x in s
    ensures i < |s| && s[i] == x
    ensures forall k :: 0 <= k < i ==> s[k] != x
  {
    if s[0] == x then 0 else 1 + FirstIndex(s[1..], x)
  }

  /**
   * `unique()`: each value of `s` once, at its first occurrence, values are
   * compared by equality (for strings: by their full text).
   */
  function Unique<T(==,!new)>(s: seq<T>): (r: seq<T>)
    ensures Distinct(r)
    ensures forall x :: x in r <==> x in s
    ensures |r| <= |s|
  {
    UniqueAfter(s, {})
  }

  /** `unique()` continued after the values in `seen` have already been yielded. */
  function UniqueAfter<T(==,!new)>(s: seq<T>, seen: set<T>): (r: seq<T>)
    ensures Distinct(r)
    ensures forall x :: x in r <==> x in s && x !in seen
    ensures |r| <= |s|
  {
    if s == [] then []
    else if s[0] in seen then UniqueAfter(s[1..], seen)
    else [s[0]] + UniqueAfter(s[1..], seen + {s[0]})
  }

  /** `r` lists values of `s` in the order of their first occurrences in `s`. */
  ghost predicate InFirstOccurrenceOrder<T>(s: seq<T>, r: seq<T>)
    requires forall x :: x in r ==> x in s
  {
    forall i, j :: 0 <= i < j < |r| ==> FirstIndex(s, r[i]) < FirstIndex(s, r[j])
  }

  /** The values come out in the order of their first occurrences in the input. */
  lemma UniqueKeepsFirstOccurrenceOrder<T(!new)>(s: seq<T>)
    ensures InFirstOccurrenceOrder(s, Unique(s))
  {
    UniqueAfterOrder(s, {});
  }

  lemma {:induction false} UniqueAfterOrder<T(!new)>(s: seq<T>, seen: set<T>)
    ensures InFirstOccurrenceOrder(s, UniqueAfter(s, seen))
  {
    if s != [] {
      var seen' := if s[0] in seen then seen else seen + {s[0]};
      var rest := UniqueAfter(s[1..], seen');
      UniqueAfterOrder(s[1..], seen');
      if s[0] in seen {
        PrependOrder(s, rest, false);
      } else {
        PrependOrder(s, rest, true);
      }
    }
  }

  /** Ordering is kept when the tail's result is extended by the head, if it is new. */
  lemma PrependOrder<T(!new)>(s: seq<T>, rest: seq<T>, withHead: bool)
    requires s != []
    requires forall x :: x in rest ==> x in s[1..] && x != s[0]
    requires InFirstOccurrenceOrder(s[1..], rest)
    ensures var r := if withHead then [s[0]] + rest else rest;
      (forall x :: x in r ==> x in s) && InFirstOccurrenceOrder(s, r)
  {
    var r := if withHead then [s[0]] + rest else rest;
    assert forall k :: 0 <= k < |r| ==> r[k] in s by {
      forall k | 0 <= k < |r|
        ensures r[k] in s
      {
        assert r[k] in r;
      }
    }
    forall i, j | 0 <= i < j < |r|
      ensures FirstIndex(s, r[i]) < FirstIndex(s, r[j])
    {
      if !withHead {
        FirstIndexOfLater(s, rest[i]);
        FirstIndexOfLater(s, rest[j]);
      } else {
        FirstIndexOfLater(s, rest[j - 1]);
        if i > 0 {
          FirstIndexOfLater(s, rest[i - 1]);
        }
      }
    }
  }

  lemma FirstIndexOfLater<T>(s: seq<T>, x: T)
    requires s != [] && x in s[1..] && x != s[0]
    ensures FirstIndex(s, x) == 1 + FirstIndex(s[1..], x)
  {
  }

  /** Two different values come out unchanged, both after nothing and after the first alone. */
  lemma UniqueOfTwo<T(!new)>(a: T, b: T)
    requires a != b
    ensures Unique([a, b]) == [a, b] && UniqueAfter([b], {a}) == [b]
  {
    assert UniqueAfter([a, b], {}) == [a] + UniqueAfter([b], {a});
    assert UniqueAfter([b], {a}) == [b] + UniqueAfter([], {a, b});
  }

  /** A repeat of the first value is dropped. */
  lemma UniqueOfRepeat<T(!new)>(a: T, b: T)
    requires a != b
    ensures Unique([a, a, b]) == [a, b]
  {
    assert UniqueAfter([a, a, b], {}) == [a] + UniqueAfter([a, b], {a});
    assert UniqueAfter([a, b], {a}) == UniqueAfter([b], {a});
    UniqueOfTwo(a, b);
  }
}

=== FILE: line_events.dfy ===
/**
 * The pure half of the log tailer: deciding whether a log line is a trigger
 * (`dota_match_log_message`) and extracting the player ids from its tags
 * (`fetch_player_ids`). The regular expressions of the source are written
 * out as explicit scanners over the line.
 */
module LineEvents {
  import opened Decimal
  import opened Itertools

  /** The literal a trigger line contains. */
  const TriggerMarker: string := "Lobby"

  /** The fixed opening of a player tag `[U:1:<digits>]`. */
  const TagPrefix: string := "[U:1:"

  /** `pat` occurs in `text` at position `i`. */
  predicate OccursAt(text: string, pat: string, i: nat) {
    i + |pat| <= |text| && text[i..i + |pat|] == pat
  }

  /** Substring search from position `from` on. */
  function OccursFrom(text: string, pat: string, from: nat): (r: bool)
    ensures r <==> exists i :: from <= i && OccursAt(text, pat, i)
    decreases |text| - from
  {
    from + |pat| <= |text| && (OccursAt(text, pat, from) || OccursFrom(text, pat, from + 1))
  }

  /** `dota_match_log_message`: the line is a trigger exactly when `Lobby` occurs in it. */
  function DotaMatchLogMessage(text: string): (r: bool)
    ensures r <==> exists i :: OccursAt(text, TriggerMarker, i)
  {
    OccursFrom(text, TriggerMarker, 0)
  }

  /**
   * The `n` characters of `text` at `i` form a tag: `[U:1:`, then 8 or 9
   * ASCII digits, then `]`.
   */
  predicate IsTagAt(text: string, i: nat, n: nat) {
    (n == 14 || n == 15) && i + n <= |text| && text[i..i + 5] == TagPrefix
    && (forall j :: i + 5 <= j < i + n - 1 ==> IsDigit(text[j]))
    && text[i + n - 1] == ']'
  }

  /** A whole string that is one tag. */
  predicate IsTag(t: string) {
    IsTagAt(t, 0, |t|)
  }

  /** Number of consecutive ASCII digits at `from`, not counting past position `end`. */
  function DigitsAt(text: string, from: nat, end: nat): (k: nat)
    ensures k == 0 || (from + k <= end && from + k <= |text|)
    ensures forall j :: from <= j < from + k ==> IsDigit(text[j])
    ensures from + k < end && from + k < |text| ==> !IsDigit(text[from + k])
    decreases end - from
  {
    if end <= from || from >= |text| || !IsDigit(text[from]) then 0
    else 1 + DigitsAt(text, from + 1, end)
  }

  /**
   * Length of the match of `\[U:1:\d{8,9}\]` that starts at `i`, or 0 when
   * none does. The greedy `\d{8,9}` takes up to nine digits; backing off to
   * eight cannot succeed, since the character it would then need as `]` is
   * a digit.
   */
  function TagLengthAt(text: string, i: nat): (n: nat)
    ensures n == 0 || IsTagAt(text, i, n)
  {
    if i + 5 <= |text| && text[i..i + 5] == TagPrefix then
      var k := DigitsAt(text, i + 5, i + 14);
      if 8 <= k && i + 5 + k < |text| && text[i + 5 + k] == ']' then 6 + k else 0
    else 0
  }

  /**
   * `find_iter` over the rest `s` of the line: a match at the start of `s`
   * is yielded and the search resumes just after it, so that matches never
   * overlap; otherwise the search moves on by one character.
   */
  function FindTags(s: string): (tags: seq<string>)
    ensures |tags| <= |s|
    decreases |s|
  {
    if s == [] then []
    else
      var n := TagLengthAt(s, 0);
      if n > 0 then [s[..n]] + FindTags(s[n..]) else FindTags(s[1..])
  }

  /** Every tag occurrence of `s`, overlapping or not, by position: the reference for FindTags. */
  function AllTags(s: string): (tags: seq<string>)
    decreases |s|
  {
    if s == [] then []
    else
      var n := TagLengthAt(s, 0);
      (if n > 0 then [s[..n]] else []) + AllTags(s[1..])
  }

  /** The tag occurrences listed by AllTags are exactly the tags that occur in the line. */
  lemma AllTagsMembers(s: string, t: string)
    ensures t in AllTags(s) <==> exists i: nat, n: nat :: i + n <= |s| && IsTagAt(s, i, n) && s[i..i + n] == t
  {
    if t in AllTags(s) {
      AllTagsSound(s, t);
    }
    if exists i: nat, n: nat :: i + n <= |s| && IsTagAt(s, i, n) && s[i..i + n] == t {
      var i: nat, n: nat :| i + n <= |s| && IsTagAt(s, i, n) && s[i..i + n] == t;
      AllTagsComplete(s, i, n);
    }
  }

  lemma AllTagsCons(s: string)
    requires s != []
    ensures var n := TagLengthAt(s, 0);
      AllTags(s) == (if n > 0 then [s[..n]] else []) + AllTags(s[1..])
  {
  }

  /** Everything AllTags lists is a tag occurring in the line. */
  lemma {:induction false} AllTagsSound(s: string, t: string)
    requires t in AllTags(s)
    ensures exists i: nat, n: nat :: i + n <= |s| && IsTagAt(s, i, n) && s[i..i + n] == t
    decreases |s|
  {
    var n0 := TagLengthAt(s, 0);
    AllTagsCons(s);
    if n0 > 0 && t == s[..n0] {
      assert s[0..n0] == s[..n0];
      assert IsTagAt(s, 0, n0);
    } else {
      var r := s[1..];
      assert t in AllTags(r);
      AllTagsSound(r, t);
      var i: nat, n: nat :| i + n <= |r| && IsTagAt(r, i, n) && r[i..i + n] == t;
      TagAtTail(s, i, n);
      assert IsTagAt(s, i + 1, n) && s[i + 1..i + 1 + n] == t;
    }
  }

  /** Every tag occurring in the line is listed by AllTags. */
  lemma {:induction false} AllTagsComplete(s: string, i: nat, n: nat)
    requires i + n <= |s| && IsTagAt(s, i, n)
    ensures s[i..i + n] in AllTags(s)
    decreases i
  {
    if i == 0 {
      TagLengthComplete(s, 0, n);
      AllTagsHead(s);
      assert s[0..n] == s[..n];
    } else {
      var t := s[i..i + n];
      TagAtTail(s, i - 1, n);
      AllTagsComplete(s[1..], i - 1, n);
      AllTagsTail(s, t);
    }
  }

  lemma AllTagsHead(s: string)
    requires s != [] && TagLengthAt(s, 0) > 0
    ensures s[..TagLengthAt(s, 0)] in AllTags(s)
  {
    AllTagsCons(s);
  }

  lemma AllTagsTail(s: string, t: string)
    requires s != [] && t in AllTags(s[1..])
    ensures t in AllTags(s)
  {
    AllTagsCons(s);
  }

  /** A tag of the line after its first character is a tag of the line one position further on. */
  lemma TagAtTail(s: string, i: nat, n: nat)
    requires s != [] && i + n <= |s| - 1
    ensures IsTagAt(s[1..], i, n) <==> IsTagAt(s, i + 1, n)
    ensures s[1..][i..i + n] == s[i + 1..i + 1 + n]
  {
    TagSlice(s[1..], i, n);
    TagSlice(s, i + 1, n);
    assert s[1..][i..i + n] == s[i + 1..i + 1 + n];
  }

  /** Whether a tag occupies `n` characters at `i` depends on those characters alone. */
  lemma TagSlice(text: string, i: nat, n: nat)
    requires i + n <= |text|
    ensures IsTagAt(text, i, n) <==> IsTag(text[i..i + n])
  {
    var t := text[i..i + n];
    if n >= 5 {
      assert t[0..5] == text[i..i + 5];
    }
    if n >= 1 {
      assert t[n - 1] == text[i + n - 1];
    }
  }

  /**
   * The scanner sees every tag: wherever a tag of `m` characters starts,
   * the match found there is exactly that tag.
   */
  lemma TagLengthComplete(text: string, i: nat, m: nat)
    requires IsTagAt(text, i, m)
    ensures TagLengthAt(text, i) == m
  {
  }

  /** What comes before position `k + i` does not affect the match found there. */
  lemma TagLengthShift(x: string, k: nat, i: nat)
    requires k <= |x|
    ensures TagLengthAt(x, k + i) == TagLengthAt(x[k..], i)
  {
    var r := x[k..];
    forall n | (n == 14 || n == 15)
      ensures IsTagAt(x, k + i, n) <==> IsTagAt(r, i, n)
    {
      if i + n <= |r| {
        assert x[k + i..k + i + n] == r[i..i + n];
        TagSlice(x, k + i, n);
        TagSlice(r, i, n);
      }
    }
    var a, b := TagLengthAt(x, k + i), TagLengthAt(r, i);
    if a > 0 {
      TagLengthComplete(r, i, a);
    } else if b > 0 {
      TagLengthComplete(x, k + i, b);
    }
  }

  /** A character other than `[` never starts a tag. */
  lemma NoTagWithoutBracket(text: string, j: nat)
    requires j < |text| && text[j] != '['
    ensures TagLengthAt(text, j) == 0
  {
    if j + 5 <= |text| {
      assert text[j..j + 5][0] == text[j];
    }
  }

  /** Everything the scanner yields is a whole tag. */
  lemma {:induction false} FindTagsAreTags(s: string)
    ensures forall t :: t in FindTags(s) ==> IsTag(t)
    decreases |s|
  {
    if s != [] {
      var n := TagLengthAt(s, 0);
      if n > 0 {
        TagSlice(s, 0, n);
        FindTagsAreTags(s[n..]);
      } else {
        FindTagsAreTags(s[1..]);
      }
    }
  }

  /** A tag holds no `[` after its first character, so no tag starts inside another. */
  lemma NoTagInsideTag(s: string, n: nat, j: nat)
    requires IsTagAt(s, 0, n) && 0 < j < n
    ensures TagLengthAt(s[j..], 0) == 0
  {
    assert s[..5][1..] == "U:1:";
    if j < 5 {
      assert s[j] == s[..5][j];
    } else {
      assert s[j] != '[';
    }
    NoTagWithoutBracket(s, j);
    TagLengthShift(s, j, 0);
  }

  lemma {:induction false} AllTagsSkip(s: string, a: nat, b: nat)
    requires a <= b <= |s|
    requires forall j :: a <= j < b ==> TagLengthAt(s[j..], 0) == 0
    ensures AllTags(s[a..]) == AllTags(s[b..])
    decreases b - a
  {
    if a < b {
      assert s[a..][1..] == s[a + 1..];
      AllTagsSkip(s, a + 1, b);
    }
  }

  /**
   * Because tags cannot overlap, the non-overlapping scan misses none: it
   * yields every tag occurrence of the line, in order of position.
   */
  lemma {:induction false} FindTagsFindsAll(s: string)
    ensures FindTags(s) == AllTags(s)
    decreases |s|
  {
    if s != [] {
      var n := TagLengthAt(s, 0);
      if n > 0 {
        FindTagsFindsAll(s[n..]);
        ResumeAfterTag(s, n);
      } else {
        FindTagsFindsAll(s[1..]);
        assert AllTags(s) == [] + AllTags(s[1..]);
      }
    }
  }

  /** Resuming the scan after a tag skips no tag occurrence. */
  lemma ResumeAfterTag(s: string, n: nat)
    requires s != [] && TagLengthAt(s, 0) == n > 0
    requires FindTags(s[n..]) == AllTags(s[n..])
    ensures FindTags(s) == AllTags(s)
  {
    assert AllTags(s) == [s[..n]] + AllTags(s[1..]);
    forall j | 1 <= j < n
      ensures TagLengthAt(s[j..], 0) == 0
    {
      NoTagInsideTag(s, n, j);
    }
    AllTagsSkip(s, 1, n);
  }

  /** Text without `[` in front of the rest of a line contributes no tag. */
  lemma {:induction false} FindTagsAfterPlain(p: string, r: string)
    requires '[' !in p
    ensures FindTags(p + r) == FindTags(r)
  {
    if p != [] {
      var x := p + r;
      assert x[0] == p[0];
      NoTagWithoutBracket(x, 0);
      assert x[1..] == p[1..] + r;
      assert '[' !in p[1..];
      FindTagsAfterPlain(p[1..], r);
    } else {
      assert p + r == r;
    }
  }

  /** A whole tag at the start of a line is matched, whatever follows it. */
  lemma FindTagsAfterTag(t: string, r: string)
    requires IsTag(t)
    ensures FindTags(t + r) == [t] + FindTags(r)
  {
    var x := t + r;
    assert x[0..|t|] == t;
    TagSlice(x, 0, |t|);
    TagLengthComplete(x, 0, |t|);
    assert x[..|t|] == t && x[|t|..] == r;
  }

  /** A line without any tag yields no ids. */
  lemma NoTagNoIds(text: string)
    requires forall i, n :: !IsTagAt(text, i, n)
    ensures FetchPlayerIds(text) == []
  {
    NoTagsFrom(text, 0);
    assert text[0..] == text;
    FindTagsFindsAll(text);
  }

  lemma {:induction false} NoTagsFrom(text: string, k: nat)
    requires k <= |text|
    requires forall i, n :: !IsTagAt(text, i, n)
    ensures AllTags(text[k..]) == []
    decreases |text| - k
  {
    if k < |text| {
      TagLengthShift(text, k, 0);
      assert text[k..][1..] == text[k + 1..];
      NoTagsFrom(text, k + 1);
    }
  }

  /** The digits of a tag: what lies between the five-character prefix and the closing `]`. */
  function TagDigits(tag: string): (d: string)
    requires IsTag(tag)
    ensures AllDigits(d) && 8 <= |d| <= 9
    ensures tag == TagPrefix + d + "]"
  {
    assert tag[..5] == TagPrefix;
    tag[5..|tag| - 1]
  }

  /** Each tag's digits parsed as an i32; the `unwrap` is discharged by ParseDigitRun. */
  function ParsePlayerIds(tags: seq<string>): (ids: seq<int>)
    requires forall t :: t in tags ==> IsTag(t)
    ensures |ids| == |tags|
    ensures forall k :: 0 <= k < |ids| ==> ids[k] == DecimalValue(TagDigits(tags[k]))
    ensures forall k :: 0 <= k < |ids| ==> 0 <= ids[k] <= 999_999_999
  {
    if tags == [] then []
    else
      var digits := TagDigits(tags[0]);
      ParseDigitRun(digits);
      [ParseI32(digits).value] + ParsePlayerIds(tags[1..])
  }

  /** `ids` are the values of the digit runs of `tags`, one for one and in order. */
  ghost predicate IdsOfTags(tags: seq<string>, ids: seq<int>) {
    |ids| == |tags|
    && forall k :: 0 <= k < |ids| ==> IsTag(tags[k]) && ids[k] == DecimalValue(TagDigits(tags[k]))
  }

  /**
   * `fetch_player_ids`: the values of the distinct tag texts of the line,
   * in the order of their first occurrence.
   */
  function FetchPlayerIds(text: string): (ids: seq<int>)
    ensures IdsOfTags(Unique(AllTags(text)), ids)
    ensures IdsOfTags(Unique(FindTags(text)), ids)
    ensures forall k :: 0 <= k < |ids| ==> 0 <= ids[k] <= 999_999_999
    ensures |ids| <= |AllTags(text)|
  {
    FindTagsFindsAll(text);
    FindTagsAreTags(text);
    ParsePlayerIds(Unique(FindTags(text)))
  }

  /** Text without any `[` in front of a line adds no ids to it. */
  lemma FetchAfterPlain(p: string, r: string)
    requires '[' !in p
    ensures FetchPlayerIds(p + r) == FetchPlayerIds(r)
  {
    FindTagsAfterPlain(p, r);
  }

  /** A line that is exactly one tag yields that tag's value. */
  lemma SingleTag(t: string)
    requires IsTag(t)
    ensures FetchPlayerIds(t) == [DecimalValue(TagDigits(t))]
  {
    FindTagsAfterTag(t, []);
    assert t + [] == t;
    assert UniqueAfter([t], {}) == [t] + UniqueAfter([], {t});
  }

  /** The characters of a digit run wrapped in the tag prefix and a closing bracket. */
  lemma WrappedChars(d: string)
    requires AllDigits(d)
    ensures |TagPrefix + d + "]"| == |d| + 6
    ensures (TagPrefix + d + "]")[..5] == TagPrefix
    ensures forall j :: 5 <= j < |d| + 5 ==> IsDigit((TagPrefix + d + "]")[j])
    ensures forall j :: 0 < j < |d| + 6 ==> (TagPrefix + d + "]")[j] != '['
  {
    var t := TagPrefix + d + "]";
    forall j | 5 <= j < |d| + 5
      ensures IsDigit(t[j])
    {
      assert t[j] == d[j - 5];
    }
    forall j | 0 < j < |d| + 6
      ensures t[j] != '['
    {
      if j < 5 {
        assert t[j] == TagPrefix[j];
      } else if j < |d| + 5 {
        assert IsDigit(t[j]);
      }
    }
  }

  /** With 8 or 9 digits the wrapped run is a tag whose digits are the run. */
  lemma WrappedTag(d: string)
    requires AllDigits(d) && 8 <= |d| <= 9
    ensures IsTag(TagPrefix + d + "]") && TagDigits(TagPrefix + d + "]") == d
  {
    var t := TagPrefix + d + "]";
    WrappedChars(d);
    assert IsTag(t);
    assert TagDigits(t) == t[5..|t| - 1] == d;
  }

  /** Wrapping a digit run that is too short or too long leaves no tag anywhere. */
  lemma WrappedNoTagAt(d: string, i: nat, n: nat)
    requires AllDigits(d) && !(8 <= |d| <= 9)
    ensures !IsTagAt(TagPrefix + d + "]", i, n)
  {
    WrappedChars(d);
    var t := TagPrefix + d + "]";
    if 0 < i && i + 5 <= |t| {
      assert t[i..i + 5][0] == t[i];
    }
    if i == 0 && (n == 14 || n == 15) && |d| >= 10 {
      assert IsDigit(t[n - 1]);
    }
  }

  /**
   * The digit-count boundary: a bracketed run of digits is a tag only with
   * 8 or 9 digits; with 7 or fewer, or 10 or more, the line yields nothing.
   */
  lemma DigitCountBoundary(d: string)
    requires AllDigits(d)
    ensures FetchPlayerIds(TagPrefix + d + "]") == if 8 <= |d| <= 9 then [DecimalValue(d)] else []
  {
    var t := TagPrefix + d + "]";
    if 8 <= |d| <= 9 {
      WrappedTag(d);
      SingleTag(t);
    } else {
      forall i, n
        ensures !IsTagAt(t, i, n)
      {
        WrappedNoTagAt(d, i, n);
      }
      NoTagNoIds(t);
    }
  }

  /** The tag of a digit run: `[U:1:` + digits + `]`. */
  function Tag(d: string): (t: string)
    requires AllDigits(d) && 8 <= |d| <= 9
    ensures IsTag(t) && TagDigits(t) == d
  {
    WrappedTag(d);
    TagPrefix + d + "]"
  }

  /** The ids of a line whose distinct tag texts, in first-occurrence order, are `t1` then `t2`. */
  lemma IdsOfTwoTags(text: string, t1: string, t2: string)
    requires IsTag(t1) && IsTag(t2)
    requires Unique(FindTags(text)) == [t1, t2]
    ensures FetchPlayerIds(text) == [DecimalValue(TagDigits(t1)), DecimalValue(TagDigits(t2))]
  {
    var ids := FetchPlayerIds(text);
    assert IdsOfTags([t1, t2], ids);
    assert ids[0] == DecimalValue(TagDigits(t1));
    assert ids[1] == DecimalValue(TagDigits(t2));
  }

  /**
   * Deduplication is by tag text, not by value: a tag with a leading zero
   * and the same tag without it are two players with the same id.
   */
  lemma {:induction false} DedupByText(d: string)
    requires AllDigits(d) && |d| == 8
    ensures FetchPlayerIds(Tag("0" + d) + Tag(d)) == [DecimalValue(d), DecimalValue(d)]
  {
    LeadingZero(d);
    var t1, t2 := Tag("0" + d), Tag(d);
    assert |t1| != |t2|;
    assert FindTags(t1 + t2) == [t1, t2] by {
      FindTagsAfterTag(t1, t2);
      FindTagsAfterTag(t2, []);
      assert t2 + [] == t2;
    }
    UniqueOfTwo(t1, t2);
    IdsOfTwoTags(t1 + t2, t1, t2);
  }

  /** The tags of a line made of tag-free text and the tags `t1`, `t1`, `t2`. */
  lemma TagsOfRepeatLine(t1: string, t2: string, p1: string, p2: string, p3: string)
    requires IsTag(t1) && IsTag(t2)
    requires '[' !in p1 && '[' !in p2 && '[' !in p3
    ensures FindTags(p1 + (t1 + (p2 + (t1 + (p3 + t2))))) == [t1, t1, t2]
  {
    var r3 := p3 + t2;
    var r2 := t1 + r3;
    var r1 := p2 + r2;
    var r0 := t1 + r1;
    assert FindTags(r3) == [t2] by {
      FindTagsAfterTag(t2, []);
      assert t2 + [] == t2;
      FindTagsAfterPlain(p3, t2);
    }
    FindTagsAfterTag(t1, r3);
    FindTagsAfterPlain(p2, r2);
    FindTagsAfterTag(t1, r1);
    FindTagsAfterPlain(p1, r0);
  }

  /**
   * A line naming one player twice and another once, with tag-free text in
   * between, yields each id once, in the order the players first appear.
   */
  lemma RepeatedPlayerOnce(d1: string, d2: string, p1: string, p2: string, p3: string)
    requires AllDigits(d1) && 8 <= |d1| <= 9 && AllDigits(d2) && 8 <= |d2| <= 9 && d1 != d2
    requires '[' !in p1 && '[' !in p2 && '[' !in p3
    ensures FetchPlayerIds(p1 + (Tag(d1) + (p2 + (Tag(d1) + (p3 + Tag(d2)))))) == [DecimalValue(d1), DecimalValue(d2)]
  {
    var t1, t2 := Tag(d1), Tag(d2);
    var text := p1 + (t1 + (p2 + (t1 + (p3 + t2))));
    TagsOfRepeatLine(t1, t2, p1, p2, p3);
    assert t1 != t2;
    UniqueOfRepeat(t1, t2);
    IdsOfTwoTags(text, t1, t2);
  }
}

=== FILE: log_watch.dfy ===
/**
 * The tailer itself: `LogWatcher::register` opens the log and positions the
 * reader at its current end; `LogWatcher::watch` reads whatever lines are
 * appended after that and returns the player ids of the first trigger line.
 *
 * `watch` never gives up in the source. Here a call is driven by `failures`,
 * one entry per pass of its loop saying whether that pass's `read_line`
 * fails; when the entries run out without a trigger line the call returns
 * `None`, standing for "still waiting".
 */
module LogWatch {
  import opened Wrappers
  import opened Decimal
  import opened Io
  import opened LineEvents

  /** `line.replace("\n", "")`: the line with every newline removed. */
  function StripNewlines(s: string): (r: string)
    ensures |r| <= |s|
  {
    if s == [] then []
    else if s[0] == '\n' then StripNewlines(s[1..])
    else [s[0]] + StripNewlines(s[1..])
  }

  /** The result has no newline, and a text without newlines is left as it is. */
  lemma {:induction false} StripNewlinesSpec(s: string)
    ensures '\n' !in StripNewlines(s)
    ensures '\n' !in s ==> StripNewlines(s) == s
  {
    if s != [] {
      StripNewlinesSpec(s[1..]);
      if '\n' !in s {
        assert '\n' !in s[1..];
      }
    }
  }

  /** Removing newlines piece by piece is removing them from the whole. */
  lemma {:induction false} StripNewlinesConcat(a: string, b: string)
    ensures StripNewlines(a + b) == StripNewlines(a) + StripNewlines(b)
  {
    if a == [] {
      assert a + b == b;
    } else {
      assert (a + b)[0] == a[0] && (a + b)[1..] == a[1..] + b;
      StripNewlinesConcat(a[1..], b);
    }
  }

  /** A line read by `read_line` loses exactly its terminating newline, if it has one. */
  lemma StripReadLine(data: string, pos: nat)
    ensures var line := NextLine(data, pos);
      StripNewlines(line) == if line != [] && line[|line| - 1] == '\n' then line[..|line| - 1] else line
  {
    var line := NextLine(data, pos);
    NextLineShape(data, pos);
    if line != [] && line[|line| - 1] == '\n' {
      var body := line[..|line| - 1];
      assert '\n' !in body by {
        forall j | 0 <= j < |body|
          ensures body[j] != '\n'
        {
          assert body[j] == line[j];
        }
      }
      assert line == body + "\n";
      StripNewlinesConcat(body, "\n");
      StripNewlinesSpec(body);
    } else {
      assert '\n' !in line by {
        forall j | 0 <= j < |line|
          ensures line[j] != '\n'
        {
        }
      }
      StripNewlinesSpec(line);
    }
  }

  /** `watch` stops on a line exactly when, without newlines, it holds "Lobby". */
  predicate IsTriggerLine(line: string)
    ensures '\n' !in line ==> (IsTriggerLine(line) <==> DotaMatchLogMessage(line))
  {
    StripNewlinesSpec(line);
    DotaMatchLogMessage(StripNewlines(line))
  }

  /**
   * What passes of the loop in `watch` come to: the offset of the trigger
   * line they stopped on, if any, and the offset reached.
   */
  datatype Step = Step(at: Option<nat>, pos: nat)

  /**
   * One pass of the loop in `watch` on a file holding `data`, starting at
   * offset `pos`; `fails` says whether its `read_line` fails.
   */
  function PollStep(data: string, pos: nat, fails: bool): (s: Step)
    ensures pos <= s.pos
    ensures s.at.Some? ==> s.at.value == pos < s.pos
  {
    if fails then Step(None, pos)
    else
      var line := NextLine(data, pos);
      if line == [] then Step(None, pos)
      else Step(if IsTriggerLine(line) then Some(pos) else None, pos + |line|)
  }

  /** The trigger line `s` stopped on, without its newline. */
  function TriggerText(data: string, s: Step): (text: Option<string>)
    ensures text.Some? <==> s.at.Some?
  {
    match s.at
    case None => None
    case Some(p) => Some(StripNewlines(NextLine(data, p)))
  }

  /** What `watch` returns when it stops as `s` does: `fetch_player_ids` of the trigger line. */
  function IdsAt(data: string, s: Step): (ids: Option<seq<int>>)
    ensures ids.Some? <==> s.at.Some?
  {
    match TriggerText(data, s)
    case None => None
    case Some(text) => Some(FetchPlayerIds(text))
  }

  /**
   * A pass whose read fails, or that starts at or past the end of the data,
   * changes nothing and returns nothing. Otherwise it advances to the end of
   * the next line of the data, and it stops on that line exactly when the
   * line, without its newline, holds "Lobby".
   */
  lemma PollStepSpec(data: string, pos: nat, fails: bool)
    ensures var s := PollStep(data, pos, fails);
      (fails || pos >= |data| ==> s == Step(None, pos))
      && (!fails && pos < |data| ==>
            pos < s.pos <= |data|
            && (forall j :: pos <= j < s.pos - 1 ==> data[j] != '\n')
            && (data[s.pos - 1] == '\n' || s.pos == |data|)
            && (s.at.Some? <==> DotaMatchLogMessage(StripNewlines(data[pos..s.pos])))
            && (s.at.Some? ==> s.at.value == pos))
  {
    NextLineShape(data, pos);
  }

  /** A successful pass that reads a line moves past it and tests it for the trigger. */
  lemma PollStepRead(data: string, pos: nat)
    requires NextLine(data, pos) != []
    ensures var line := NextLine(data, pos);
      PollStep(data, pos, false) == Step(if IsTriggerLine(line) then Some(pos) else None, pos + |line|)
  {
  }

  /**
   * Passes of the loop in `watch` on fixed data, one per entry of
   * `failures`, until one reads a trigger line.
   */
  function WatchRun(data: string, pos: nat, failures: seq<bool>): (r: Step)
    ensures pos <= r.pos
    ensures r.at.Some? ==> pos <= r.at.value < r.pos
    decreases |failures|
  {
    if failures == [] then Step(None, pos)
    else
      var s := PollStep(data, pos, failures[0]);
      if s.at.Some? then s else WatchRun(data, s.pos, failures[1..])
  }

  lemma WatchRunUnfold(data: string, pos: nat, failures: seq<bool>)
    requires failures != []
    ensures WatchRun(data, pos, failures) ==
      var s := PollStep(data, pos, failures[0]);
      if s.at.Some? then s else WatchRun(data, s.pos, failures[1..])
  {
  }

  /** A run of a single pass is that pass. */
  lemma OnePass(data: string, pos: nat, fails: bool)
    ensures WatchRun(data, pos, [fails]) == PollStep(data, pos, fails)
  {
    WatchRunUnfold(data, pos, [fails]);
    assert [fails][1..] == [];
  }

  /** The offset never moves backwards, and never past the end of the data. */
  lemma {:induction false} WatchRunBounds(data: string, pos: nat, failures: seq<bool>)
    ensures pos <= WatchRun(data, pos, failures).pos
    ensures pos <= |data| ==> WatchRun(data, pos, failures).pos <= |data|
    decreases |failures|
  {
    if failures != [] {
      var s := PollStep(data, pos, failures[0]);
      PollStepSpec(data, pos, failures[0]);
      WatchRunBounds(data, s.pos, failures[1..]);
      WatchRunUnfold(data, pos, failures);
    }
  }

  /** With nothing new in the file the watcher keeps waiting where it is. */
  lemma {:induction false} WatchRunAtEnd(data: string, pos: nat, failures: seq<bool>)
    requires pos >= |data|
    ensures WatchRun(data, pos, failures) == Step(None, pos)
    decreases |failures|
  {
    if failures != [] {
      PollStepSpec(data, pos, failures[0]);
      WatchRunAtEnd(data, pos, failures[1..]);
      WatchRunUnfold(data, pos, failures);
    }
  }

  /** The line read at `p` is a trigger line, and `s` is where `watch` stops on it. */
  ghost predicate TriggerLineAt(data: string, p: nat, s: Step) {
    var line := NextLine(data, p);
    line != [] && IsTriggerLine(line) && s == Step(Some(p), p + |line|)
  }

  /**
   * `watch` returns only on a trigger line: the line it stops on is read
   * at an offset not before `pos`, holds "Lobby" once its newline is
   * removed, and the watcher stops just past it.
   */
  lemma {:induction false} WatchRunSound(data: string, pos: nat, failures: seq<bool>)
    requires WatchRun(data, pos, failures).at.Some?
    ensures var r := WatchRun(data, pos, failures);
      pos <= r.at.value < |data| && TriggerLineAt(data, r.at.value, r)
    decreases |failures|
  {
    var s := PollStep(data, pos, failures[0]);
    PollStepSpec(data, pos, failures[0]);
    WatchRunUnfold(data, pos, failures);
    if s.at.None? {
      WatchRunSound(data, s.pos, failures[1..]);
    }
  }

  /** The reads of `failures` that succeed, in order. */
  function Successes(failures: seq<bool>): (r: seq<bool>)
    ensures forall i :: 0 <= i < |r| ==> !r[i]
    ensures |r| == multiset(failures)[false]
  {
    if failures == [] then []
    else
      assert failures == [failures[0]] + failures[1..];
      if failures[0] then Successes(failures[1..])
      else [false] + Successes(failures[1..])
  }

  /**
   * A failed read is a no-op: the run is the same as one in which only the
   * successful reads happened.
   */
  lemma {:induction false} FailuresAreNoOps(data: string, pos: nat, failures: seq<bool>)
    ensures WatchRun(data, pos, failures) == WatchRun(data, pos, Successes(failures))
    decreases |failures|
  {
    if failures != [] {
      WatchRunUnfold(data, pos, failures);
      FailuresAreNoOps(data, pos, failures[1..]);
      if !failures[0] {
        var s := PollStep(data, pos, false);
        FailuresAreNoOps(data, s.pos, failures[1..]);
        assert Successes(failures) == [false] + Successes(failures[1..]);
        WatchRunUnfold(data, pos, Successes(failures));
      }
    }
  }

  /** The first line of `lines` that, without newlines, holds "Lobby", so stripped. */
  function FirstTrigger(lines: seq<string>): (r: Option<string>)
  {
    if lines == [] then None
    else if IsTriggerLine(lines[0]) then Some(StripNewlines(lines[0]))
    else FirstTrigger(lines[1..])
  }

  /** Line `k` is the first of `lines` that, without newlines, holds "Lobby". */
  ghost predicate IsFirstTrigger(lines: seq<string>, k: nat) {
    k < |lines| && IsTriggerLine(lines[k])
    && forall j :: 0 <= j < k ==> !IsTriggerLine(lines[j])
  }

  /**
   * `FirstTrigger` finds a line exactly when some line holds "Lobby", and
   * then it is the first such line.
   */
  lemma {:induction false} FirstTriggerFinds(lines: seq<string>)
    ensures FirstTrigger(lines).Some? <==> exists k :: 0 <= k < |lines| && IsTriggerLine(lines[k])
    ensures FirstTrigger(lines).Some? ==>
      exists k :: 0 <= k < |lines| && IsFirstTrigger(lines, k) && FirstTrigger(lines) == Some(StripNewlines(lines[k]))
  {
    if lines != [] {
      var tail := lines[1..];
      FirstTriggerFinds(tail);
      if IsTriggerLine(lines[0]) {
        assert IsFirstTrigger(lines, 0);
      } else {
        assert FirstTrigger(lines) == FirstTrigger(tail);
        forall k | 1 <= k < |lines|
          ensures lines[k] == tail[k - 1]
        {
        }
        if FirstTrigger(tail).Some? {
          var k :| 0 <= k < |tail| && IsFirstTrigger(tail, k) && FirstTrigger(tail) == Some(StripNewlines(tail[k]));
          assert IsFirstTrigger(lines, k + 1);
        }
      }
    }
  }

  lemma FirstTriggerCons(lines: seq<string>, line: string, rest: seq<string>)
    requires lines == [line] + rest
    ensures FirstTrigger(lines) == if IsTriggerLine(line) then Some(StripNewlines(line)) else FirstTrigger(rest)
  {
    assert lines[0] == line && lines[1..] == rest;
  }

  /** One successful pass consumes the first of the lines after `pos` and tests it for the trigger. */
  lemma FirstTriggerStep(data: string, pos: nat)
    requires pos < |data|
    ensures var s := PollStep(data, pos, false);
      pos < s.pos <= |data|
      && |Lines(data[pos..])| == 1 + |Lines(data[s.pos..])|
      && FirstTrigger(Lines(data[pos..])) == if s.at.Some? then TriggerText(data, s) else FirstTrigger(Lines(data[s.pos..]))
  {
    var line := NextLine(data, pos);
    assert line != [] by {
      NextLineShape(data, pos);
    }
    LinesFrom(data, pos);
    PollStepRead(data, pos);
    FirstTriggerCons(Lines(data[pos..]), line, Lines(data[pos + |line|..]));
  }

  /**
   * With at least as many successful reads as there are lines after `pos`,
   * `watch` stops on the first trigger line after `pos`; when there is none
   * it has read to the end of the data.
   */
  lemma {:induction false} WatchRunComplete(data: string, pos: nat, failures: seq<bool>)
    requires pos <= |data|
    requires forall i :: 0 <= i < |failures| ==> !failures[i]
    requires |failures| >= |Lines(data[pos..])|
    ensures TriggerText(data, WatchRun(data, pos, failures)) == FirstTrigger(Lines(data[pos..]))
    ensures WatchRun(data, pos, failures).at.None? ==> WatchRun(data, pos, failures).pos == |data|
    decreases |data| - pos
  {
    if pos == |data| {
      assert data[pos..] == [];
      WatchRunAtEnd(data, pos, failures);
    } else {
      var s := PollStep(data, pos, false);
      FirstTriggerStep(data, pos);
      assert !failures[0];
      WatchRunUnfold(data, pos, failures);
      if s.at.None? {
        WatchRunComplete(data, s.pos, failures[1..]);
      }
    }
  }

  /**
   * Whatever the pattern of failed reads, `watch` stops on the first trigger
   * line after `pos` once at least as many reads succeed as there are lines.
   */
  lemma WatchRunFindsFirstTrigger(data: string, pos: nat, failures: seq<bool>)
    requires pos <= |data|
    requires multiset(failures)[false] >= |Lines(data[pos..])|
    ensures TriggerText(data, WatchRun(data, pos, failures)) == FirstTrigger(Lines(data[pos..]))
    ensures WatchRun(data, pos, failures).at.None? ==> WatchRun(data, pos, failures).pos == |data|
  {
    FailuresAreNoOps(data, pos, failures);
    WatchRunComplete(data, pos, Successes(failures));
  }

  /** A newline-terminated line without other newlines is tested as the line without it. */
  lemma StripTerminated(line: string)
    requires '\n' !in line
    ensures StripNewlines(line + "\n") == line
  {
    StripNewlinesConcat(line, "\n");
    StripNewlinesSpec(line);
    assert StripNewlines("\n") == [];
    assert line + [] == line;
  }

  /**
   * `read_line` returns an unterminated last line, and `watch` consumes it.
   * When the writer has put down only the `head` of a trigger line and
   * neither `head` nor the `tail` written later holds "Lobby" by itself, a
   * pass consumes `head`; once the rest is written the watcher reads only
   * `tail`, which is no trigger. Read in one piece the line is a trigger.
   */
  lemma PartialLineConsumed(head: string, tail: string)
    requires head != [] && '\n' !in head && '\n' !in tail
    requires DotaMatchLogMessage(head + tail) && !DotaMatchLogMessage(head) && !DotaMatchLogMessage(tail)
    ensures WatchRun(head, 0, [false]) == Step(None, |head|)
    ensures WatchRun(head + (tail + "\n"), |head|, [false]) == Step(None, |head| + |tail| + 1)
    ensures WatchRun((head + tail) + "\n", 0, [false]) == Step(Some(0), |head| + |tail| + 1)
  {
    assert NextLine(head, 0) == head by {
      NextLineShape(head, 0);
    }
    assert StripNewlines(head) == head by {
      StripNewlinesSpec(head);
    }
    OnePass(head, 0, false);
    assert NextLine(head + (tail + "\n"), |head|) == tail + "\n" by {
      ReadsTerminatedLine(head, tail, []);
      assert tail + "\n" + [] == tail + "\n";
    }
    StripTerminated(tail);
    OnePass(head + (tail + "\n"), |head|, false);
    assert '\n' !in head + tail;
    assert NextLine((head + tail) + "\n", 0) == (head + tail) + "\n" by {
      ReadsTerminatedLine([], head + tail, []);
      assert [] + ((head + tail) + "\n" + []) == (head + tail) + "\n";
    }
    StripTerminated(head + tail);
    OnePass((head + tail) + "\n", 0, false);
  }

  /**
   * A trigger line written in two pieces, split after `Lobby`: the first
   * piece is already a trigger line, so `watch` stops on it and returns its
   * ids, which are none. The player named in the second piece is never
   * reported, although the whole line, read in one piece, yields that id.
   */
  lemma SplitTriggerLosesIds(lead: string, d: string)
    requires '\n' !in lead && '[' !in lead && DotaMatchLogMessage(lead)
    requires AllDigits(d) && 8 <= |d| <= 9
    ensures IdsAt(lead, WatchRun(lead, 0, [false])) == Some([])
    ensures var whole := (lead + Tag(d)) + "\n";
      IdsAt(whole, WatchRun(whole, 0, [false])) == Some([DecimalValue(d)])
  {
    UnterminatedTrigger(lead);
    assert FetchPlayerIds(lead) == [] by {
      FetchAfterPlain(lead, []);
      assert lead + [] == lead;
    }
    TriggerOfTag(lead, d);
    TerminatedTrigger(lead + Tag(d));
  }

  /** An unterminated trigger line at the end of the data is read, tested and stopped on as it is. */
  lemma UnterminatedTrigger(line: string)
    requires '\n' !in line && DotaMatchLogMessage(line)
    ensures TriggerText(line, WatchRun(line, 0, [false])) == Some(line)
  {
    assert NextLine(line, 0) == line by {
      NextLineShape(line, 0);
    }
    assert StripNewlines(line) == line by {
      StripNewlinesSpec(line);
    }
    OnePass(line, 0, false);
  }

  /** A terminated trigger line alone in the data is stopped on, and tested without its newline. */
  lemma TerminatedTrigger(line: string)
    requires '\n' !in line && DotaMatchLogMessage(line)
    ensures TriggerText(line + "\n", WatchRun(line + "\n", 0, [false])) == Some(line)
  {
    ReadsTriggerLine([], line, []);
    assert ([] + (line + "\n")) + [] == line + "\n";
    OnePass(line + "\n", 0, false);
  }

  /**
   * A watcher registered on a log file: `reader` is positioned at `pos`,
   * the offset up to which the file has been consumed.
   */
  class LogWatcher {
    const reader: Reader
    var pos: nat

    ghost predicate Valid()
      reads this, reader
    {
      reader.cursor == pos
    }

    /** What `register` does once the file is open: start at its current length. */
    constructor Open(file: LogFile)
      ensures reader.file == file && fresh(reader)
      ensures pos == |file.data| && Valid()
    {
      var r := new Reader(file);
      r.Seek(|file.data|);
      reader := r;
      pos := |file.data|;
    }

    /**
     * `register`: opening the file or reading its metadata can fail, and
     * that error is returned; otherwise the watcher starts at the end of
     * what the file holds now, so lines already written are never reported.
     */
    static method Register(file: LogFile, openError: Option<IoError>, metadataError: Option<IoError>)
      returns (r: Result<LogWatcher, IoError>)
      ensures openError.Some? ==> r == Err(openError.value)
      ensures openError.None? && metadataError.Some? ==> r == Err(metadataError.value)
      ensures openError.None? && metadataError.None? ==>
        r.Ok? && fresh(r.value) && fresh(r.value.reader) && r.value.Valid()
        && r.value.reader.file == file && r.value.pos == |file.data|
    {
      if openError.Some? {
        return Err(openError.value);
      }
      if metadataError.Some? {
        return Err(metadataError.value);
      }
      var w := new LogWatcher.Open(file);
      return Ok(w);
    }

    /**
     * One pass of the loop in `watch`; `fails` says whether its `read_line`
     * fails. Returns the ids when the line read is a trigger line.
     */
    method Poll(fails: bool) returns (ids: Option<seq<int>>)
      requires Valid()
      modifies this, reader
      ensures Valid()
      ensures var s := PollStep(reader.file.data, old(pos), fails);
        ids == IdsAt(reader.file.data, s) && pos == s.pos
    {
      var resp := reader.ReadLine(fails);
      match resp
      case Ok(line) =>
        if |line| > 0 {
          pos := pos + |line|;
          reader.Seek(pos);
          var text := StripNewlines(line);
          if DotaMatchLogMessage(text) {
            return Some(FetchPlayerIds(text));
          }
        }
        return None;
      case Err(_) =>
        return None;
    }

    /**
     * `watch`: pass after pass, one per entry of `failures`, until a pass
     * reads a trigger line, whose ids it returns. The file does not change
     * during the call.
     */
    method Watch(failures: seq<bool>) returns (ids: Option<seq<int>>)
      requires Valid()
      modifies this, reader
      ensures Valid()
      ensures var s := WatchRun(reader.file.data, old(pos), failures);
        ids == IdsAt(reader.file.data, s) && pos == s.pos
    {
      var k := 0;
      while k < |failures|
        invariant k <= |failures|
        invariant Valid()
        invariant WatchRun(reader.file.data, old(pos), failures) == WatchRun(reader.file.data, pos, failures[k..])
      {
        assert failures[k..][1..] == failures[k + 1..];
        WatchRunUnfold(reader.file.data, pos, failures[k..]);
        ids := Poll(failures[k]);
        if ids.Some? {
          return;
        }
        k := k + 1;
      }
      ids := None;
    }
  }

  /**
   * The tailer in use: a log already holding `existing` is registered; the
   * client then writes a line of `noise` that is no trigger, and a trigger
   * line, `lead` followed by the tag of digit run `d`; one read in between
   * fails. `watch` skips what was there before registration and returns
   * that player's id.
   */
  method TailNewTrigger(existing: string, noise: string, lead: string, d: string) returns (ids: Option<seq<int>>)
    requires '\n' !in noise && !DotaMatchLogMessage(noise)
    requires '\n' !in lead && '[' !in lead && DotaMatchLogMessage(lead)
    requires AllDigits(d) && 8 <= |d| <= 9
    ensures ids == Some([DecimalValue(d)])
  {
    var file := new LogFile(existing);
    var r := LogWatcher.Register(file, None, None);
    var w := r.value;
    var trigger := lead + Tag(d);
    file.Append(noise + "\n");
    file.Append(trigger + "\n");
    ids := w.Watch([false, true, false]);
    NewTriggerRun(existing, noise, lead, d);
  }

  lemma AppendAssoc(a: string, b: string, c: string)
    ensures (a + b) + c == a + (b + c)
  {
  }

  lemma AppendEmpty(a: string)
    ensures a + [] == a
  {
  }

  /** A pass that reads a terminated line which is no trigger moves past it. */
  lemma ReadsPlainLine(before: string, line: string, after: string)
    requires '\n' !in line && !DotaMatchLogMessage(line)
    ensures PollStep((before + (line + "\n")) + after, |before|, false) == Step(None, |before| + |line| + 1)
  {
    AppendAssoc(before, line + "\n", after);
    ReadsTerminatedLine(before, line, after);
    StripTerminated(line);
    PollStepRead(before + (line + "\n" + after), |before|);
  }

  /** A pass that reads a terminated trigger line stops on it, whatever follows it, and its text is the line. */
  lemma ReadsTriggerLine(before: string, line: string, after: string)
    requires '\n' !in line && DotaMatchLogMessage(line)
    ensures var data := (before + (line + "\n")) + after;
      var s := PollStep(data, |before|, false);
      s == Step(Some(|before|), |before| + |line| + 1) && TriggerText(data, s) == Some(line)
  {
    AppendAssoc(before, line + "\n", after);
    ReadsTerminatedLine(before, line, after);
    StripTerminated(line);
    PollStepRead(before + (line + "\n" + after), |before|);
  }

  /**
   * After a line which is no trigger and a trigger line, with a failed read
   * in between, the watcher stops on the trigger line.
   */
  lemma SkipThenTrigger(existing: string, noise: string, trigger: string)
    requires '\n' !in noise && !DotaMatchLogMessage(noise)
    requires '\n' !in trigger && DotaMatchLogMessage(trigger)
    ensures var data := (existing + (noise + "\n")) + (trigger + "\n");
      TriggerText(data, WatchRun(data, |existing|, [false, true, false])) == Some(trigger)
  {
    var before := existing + (noise + "\n");
    ReadsPlainLine(existing, noise, trigger + "\n");
    ReadsTriggerLine(before, trigger, []);
    AppendEmpty(before + (trigger + "\n"));
    SkipFailStop(before + (trigger + "\n"), |existing|, |before|, |before| + |trigger| + 1);
  }

  /** A pass that reads past a line, a failed read, then a pass that stops. */
  lemma SkipFailStop(data: string, pos: nat, p: nat, q: nat)
    requires PollStep(data, pos, false) == Step(None, p)
    requires PollStep(data, p, false) == Step(Some(p), q)
    ensures WatchRun(data, pos, [false, true, false]) == Step(Some(p), q)
  {
    WatchRunUnfold(data, pos, [false, true, false]);
    assert [false, true, false][1..] == [true, false];
    WatchRunUnfold(data, p, [true, false]);
    assert [true, false][1..] == [false];
    OnePass(data, p, false);
  }

  lemma NewTriggerRun(existing: string, noise: string, lead: string, d: string)
    requires '\n' !in noise && !DotaMatchLogMessage(noise)
    requires '\n' !in lead && '[' !in lead && DotaMatchLogMessage(lead)
    requires AllDigits(d) && 8 <= |d| <= 9
    ensures var data := (existing + (noise + "\n")) + ((lead + Tag(d)) + "\n");
      IdsAt(data, WatchRun(data, |existing|, [false, true, false])) == Some([DecimalValue(d)])
  {
    TriggerOfTag(lead, d);
    SkipThenTrigger(existing, noise, lead + Tag(d));
  }

  /** A tag has no newline in it. */
  lemma TagHasNoNewline(d: string)
    requires AllDigits(d) && 8 <= |d| <= 9
    ensures '\n' !in Tag(d)
  {
    var t := Tag(d);
    WrappedChars(d);
    forall j | 0 <= j < |t|
      ensures t[j] != '\n'
    {
      if j < 5 {
        assert t[j] == TagPrefix[j];
      }
    }
  }

  /** Text appended to a trigger line leaves it a trigger line. */
  lemma MatchExtends(a: string, b: string)
    requires DotaMatchLogMessage(a)
    ensures DotaMatchLogMessage(a + b)
  {
    var i: nat :| OccursAt(a, TriggerMarker, i);
    assert (a + b)[i..i + 5] == a[i..i + 5];
    assert OccursAt(a + b, TriggerMarker, i);
  }

  /** A trigger lead followed by a tag is a trigger line that yields that tag's id. */
  lemma TriggerOfTag(lead: string, d: string)
    requires '\n' !in lead && '[' !in lead && DotaMatchLogMessage(lead)
    requires AllDigits(d) && 8 <= |d| <= 9
    ensures '\n' !in lead + Tag(d) && DotaMatchLogMessage(lead + Tag(d))
    ensures FetchPlayerIds(lead + Tag(d)) == [DecimalValue(d)]
  {
    var t := Tag(d);
    TagHasNoNewline(d);
    MatchExtends(lead, t);
    FetchAfterPlain(lead, t);
    SingleTag(t);
  }
}

=== FILE: wrappers.dfy ===
/** Option and Result, for Rust's `Option` and `Result`. */
module Wrappers {

  datatype Option<+T> = None | Some(value: T)

  datatype Result<+R, +E> = Ok(value: R) | Err(error: E)
}
